=== FILE: README.md ===
# PressReview: the pure core of the PubMed press reviewer

PressReview queries PubMed for each configured search term, extracts title, authors,
abstract, date and publication type of every returned paper, renders an HTML newsletter
of the complete papers and merges them into a per-query table, de-duplicated by title.
This project models the deterministic part of `PressReviewer` in `press_review.py`:

- **Record extraction** (`fetch_paper_details`): the parsed efetch result is a tree of
  datatypes whose keys are `Option`s (`PubmedTree`); `PaperDetails.Extract` turns it into a
  `Paper` row or one of the three errors the code raises (missing `PubmedArticle` key,
  `Abstract` without `AbstractText`, no entry with `MedlineCitation` and `Article`, which
  leaves `paper_df` unbound). The author, abstract-segment and entry loops are methods proved
  equal to functional definitions.
- **Digest assembly** (the loop of `generate_html_from_query`): `Digest.KeepComplete` keeps the
  papers whose title, authors and abstract are non-empty, in fetch order; `Digest.Render`
  concatenates one `<h2>…</h2><p>Authors: …</p><p>…</p><hr>` fragment per kept paper.
- **Record store merge**: `RecordStore.Merge` concatenates the stored table and the batch,
  keeps the first row of every title (`drop_duplicates(subset=['Title'])`), and reports the
  growth when positive; without a stored table the batch is written as is.
- **Query run and whole run**: `PressReviewer.RunQuery` aborts on a missing `IdList`, fails on
  the first failing extraction, and otherwise yields the newsletter body and the batch;
  `PressReviewer.FetchPapers` runs the queries in order against a store keyed by
  `FileKey(query)` (spaces replaced by underscores) and stops at the first query that ends
  the process.

The PubMed search and fetch calls are parameters (`search: string -> SearchResult`,
`fetch: PubmedId -> FetchedRecord`); the CSV files are a map from file key to rows.
A query run takes the per-identifier extraction as a function, which a whole run
instantiates with `PressReviewer.Details(fetch)`, the composition of fetch and `Extract`.

Behaviours of the code that are easy to miss:

- An extraction error is not caught anywhere, so, like `exit()` on a missing `IdList`, it ends
  the whole run, not only the current query (`PressReviewer.Halt.Crashed`).
- With no stored table, no "N found" count is printed even when papers are new
  (`Scenarios.ScenarioFreshStore` against `Scenarios.ScenarioExistingStore`).
- A fresh table is written without de-duplication, so running the same query a second time
  can shrink it when the first batch held two papers with one title
  (`RecordStore.FreshStoreSecondRun`, `Scenarios.FreshStoreKeepsDuplicateTitles`); from the
  second run on, repeating a batch leaves the table unchanged (`RecordStore.MergeIdempotent`).
- An empty `IdList` is not an abort: it yields an empty body and an empty batch.
- An `AbstractText` that is neither a list nor a string leaves the abstract empty
  (`PubmedTree.OtherShape`).

## Model

| member | source | states |
|---|---|---|
| `PaperDetails.AuthorEntry` | press_review.py:51-59 | one author contributes the last name or "NoLastNameFound", one space, the initials or "NoInitialsFound", and a comma |
| `PaperDetails.AuthorsField` | press_review.py:49-61 | an absent `AuthorList` gives "NoAuthorsFound"; a present list gives the empty string exactly when it has no authors |
| `PaperDetails.JoinAuthors` | press_review.py:49-59 | the author loop yields every author's `lastname + " " + initials + ","` in list order, with "NoLastNameFound"/"NoInitialsFound" for missing fields, and is empty iff the list is |
| `PaperDetails.AuthorsOfSplit` | press_review.py:50-59 | the author column of a concatenated list is the columns of the two parts in order |
| `PaperDetails.AuthorsOfSingle` | press_review.py:50-59 | a list of one author yields exactly that author's entry, the base case that with `PaperDetails.AuthorsOfSplit` fixes the column for every list |
| `PaperDetails.AuthorsOfEmptyIff` | press_review.py:50-59 | a present author list yields an empty column iff it has no entries |
| `PaperDetails.JoinSegments` | press_review.py:64-66 | the segment loop yields every segment preceded by one space, in order |
| `PaperDetails.JoinedSegmentsSpaceSeparated` | press_review.py:64-66 | a non-empty segment list yields one leading space followed by the segments joined with single spaces |
| `PaperDetails.JoinedSegmentsEmptyIff` | press_review.py:64-66 | the joined abstract is empty iff there are no segments |
| `PaperDetails.AbstractField` | press_review.py:62-71 | absent `Abstract` gives ""; `Abstract` without `AbstractText` is an error; a list gives the space-separated segments after a leading space; a string is used verbatim; any other shape gives "" |
| `PaperDetails.ExtractArticle` | press_review.py:45-90 | the row's title defaults to "", authors follow the sentinel rules, the only error is a missing `AbstractText`, the date is present iff `ArticleDate` is present and non-empty and is its first entry, the type is the first publication type or ""; the Author column is exactly `AuthorsField` of the author list and the Abstract column exactly `AbstractField` of the abstract node |
| `PaperDetails.FirstUsable` | press_review.py:41-42 | the article used is that of the first entry having both `MedlineCitation` and `Article`; none is found iff no entry has both |
| `PaperDetails.Extract` | press_review.py:36-94 | a missing `PubmedArticle` key is an error; no usable entry is an error (unbound row) iff no entry is usable; otherwise the row comes from the first usable entry alone |
| `PaperDetails.FetchPaperDetails` | press_review.py:41-94 | the entry loop that skips unusable entries and stops at the first usable one computes exactly `Extract` |
| `Digest.Complete` | press_review.py:129 | a paper is published when its title, authors and abstract are all non-empty (the row frame is never empty) |
| `Digest.Fragment` | press_review.py:130 | a published paper's block is `<h2>`, the title, `</h2><p>Authors: `, the authors, `</p><p>`, the abstract and `</p><hr>`, in that order and nothing else |
| `Digest.KeepComplete` | press_review.py:127-132 | the batch is the fetched papers that pass the test, in fetch order; its properties are stated by `Digest.KeepCompleteSound` and `Digest.KeepCompleteSplit` |
| `Digest.Render` | press_review.py:130-131 | the body is the concatenation of the batch's fragments in order; its properties are stated by `Digest.RenderSplit` and `Digest.RenderEmptyIff` |
| `Digest.KeepCompleteSound` | press_review.py:127-132 | the kept papers are all complete, a paper is kept iff it was fetched and is complete, and there are no more kept than fetched |
| `Digest.KeepCompleteSplit` | press_review.py:127-132 | filtering preserves fetch order: the kept papers of a concatenation are the kept papers of each part in turn |
| `Digest.ExtractedArticlePublished` | press_review.py:129 | an extracted article is published iff its title is non-empty, its author list is absent or non-empty, and its `AbstractText` is a non-empty segment list or a non-empty string; a list of empty segments passes the test |
| `Digest.RenderSplit` | press_review.py:130-131 | the newsletter body of a concatenated batch is the bodies of the parts in order |
| `Digest.RenderEmptyIff` | press_review.py:130-131 | the newsletter body is empty iff the batch is |
| `Digest.AppendIfComplete` | press_review.py:129-132 | one loop step appends a paper's fragment and row exactly when it is complete, keeping the body equal to the rendering of the batch |
| `Digest.AssembleDigest` | press_review.py:123-132 | the filter-and-append loop yields the complete papers in order as the batch and exactly one fragment per batch row as the body |
| `RecordStore.KeepFirst` | press_review.py:149 | keep-first de-duplication by title; its properties are stated by `RecordStore.KeepFirstSound`, `RecordStore.KeepFirstIsFirst` and `RecordStore.KeepFirstSplit` |
| `RecordStore.KeepFirstSound` | press_review.py:149 | keep-first de-duplication yields distinct titles, exactly the titles of the input not already seen, only input rows, and no more rows than the input |
| `RecordStore.DropDuplicateTitles` | press_review.py:149 | `drop_duplicates(subset=['Title'])` yields a table with distinct titles, every title of the input, and only input rows |
| `RecordStore.KeepFirstIsFirst` | press_review.py:149 | the row kept for a title is the first input row with that title |
| `RecordStore.KeepFirstSplit` | press_review.py:148-149 | de-duplicating a concatenation keeps the first part's rows, then the second part's rows whose titles the first part lacks |
| `RecordStore.Merge` | press_review.py:145-154 | without a stored table the batch is written as is with no count; with one, the table has distinct titles, every title of stored and new rows, at most their combined length, and a count that is printed iff the table grew and equals the growth |
| `RecordStore.StoredRowWins` | press_review.py:148-149 | the merged row for a title that is stored is the first stored row with that title, whatever the batch holds |
| `RecordStore.MergeKeepsStoredPrefix` | press_review.py:148-149 | a stored table with distinct titles stays the prefix of the merged table, followed by the batch's new titles in batch order |
| `RecordStore.NewEntriesAreNewTitles` | press_review.py:147-151 | over a stored table with distinct titles, a count is printed iff the batch has a title not stored, and it is the number of such titles |
| `RecordStore.MergeIdempotent` | press_review.py:146-152 | merging the same batch into a merged table leaves it unchanged and prints no count |
| `RecordStore.FreshStoreSecondRun` | press_review.py:145-154 | after a fresh write, the second merge of the same batch is the batch's de-duplication, unchanged iff the batch's titles are distinct |
| `PressReviewer.FileKey` | press_review.py:145 | the file key has the query's length, no spaces, underscores where the query has spaces and the query's other characters unchanged |
| `PressReviewer.FileKeyIdempotent` | press_review.py:145 | a file key is its own file key |
| `PressReviewer.FetchAll` | press_review.py:127-128 | fetching succeeds iff every identifier extracts, giving their rows in identifier order; otherwise the error is that of the first failing identifier |
| `PressReviewer.FetchAllFailsAt` | press_review.py:127-128 | the first failing identifier decides the error of the query run |
| `PressReviewer.FetchAllSucceeds` | press_review.py:127-128 | when every identifier extracts, the fetched rows are those rows in order |
| `PressReviewer.RunQuery` | press_review.py:116-132 | a query aborts iff `IdList` is missing; an empty `IdList` gives an empty body and batch; a failure carries the first identifier whose extraction fails and its error; otherwise the batch is the complete fetched papers in order and the body renders exactly them |
| `PressReviewer.GenerateFromQuery` | press_review.py:116-132 | the loop that extracts, filters and appends per identifier computes exactly `RunQuery`, including the identifier and error of the first failing extraction |
| `PressReviewer.Absorb` | press_review.py:145-154 | the printed count is the merge's count; the query's table is replaced by the merge under its file key and every other table is unchanged; without a stored table the batch is stored and no count printed |
| `PressReviewer.FetchPapers` | press_review.py:19-21 | the queries complete in order as a prefix, each report carrying the body its query generated; the run halts iff some query did not complete, the halting query is the one after the completed prefix, an exit means that query's search lacked `IdList`, and a crash carries that query's first failing identifier and error |
| `PressReviewer.FetchPapersTouchesOnlyQueryKeys` | press_review.py:19-21 | a run only writes tables under its queries' file keys and leaves every other table as it was |
| `PressReviewer.MissingIdListHaltsRun` | press_review.py:116-121 | a query without `IdList` after queries that all completed halts the whole run there, so no later query runs |
| `PressReviewer.FetchFailureHaltsRun` | press_review.py:19-21 | an uncaught extraction error in a query after queries that all completed halts the whole run there with that identifier and error, so no later query runs |
| `PressReviewer.DistinctKeysReportOwnMerge` | press_review.py:145-154 | when no two queries share a file key, every completed query prints the "N found" count of merging its batch into the table stored before the run, and its table ends the run as exactly that merge |
| `PressReviewer.AllQueriesComplete` | press_review.py:19-21 | when every query generates its digest, every query completes and the run does not halt |
| `PressReviewer.RunnerExitsOnMissingIdList` | press_review.py:116-121 | the query runner exits exactly on a search result without `IdList` |
| `Scenarios.AuthorFormatting` | press_review.py:49-61 | "Smith"/"J" gives "Smith J,"; an author with neither field gives "NoLastNameFound NoInitialsFound,"; absent and empty lists give "NoAuthorsFound" and "" |
| `Scenarios.AbstractConcatenation` | press_review.py:64-66 | segments "Background text." and "Results text." give " Background text. Results text." |
| `Scenarios.EmptySegmentIsPublished` | press_review.py:64-66 | an `AbstractText` list holding one empty segment gives the abstract " ", and the paper passes the test of line 129 |
| `Scenarios.FileKeysCollide` | press_review.py:145 | the queries "a b" and "a_b" share the file key "a_b" |
| `Scenarios.FreshStoreKeepsDuplicateTitles` | press_review.py:145-154 | a fresh table keeps two rows with one title; the next merge keeps only the first |
| `Scenarios.ScenarioExtract100` | press_review.py:41-94 | a complete record extracts to its row |
| `Scenarios.ScenarioExtract200` | press_review.py:41-94 | a record without `AuthorList` and `Abstract` extracts to "NoAuthorsFound" and an empty abstract |
| `Scenarios.ScenarioFetchAll` | press_review.py:127-128 | identifiers "100" and "200" fetch to their two rows in order |
| `Scenarios.ScenarioDigest` | press_review.py:127-132 | only the complete paper is kept, rendered as one fragment |
| `Scenarios.ScenarioQueryOutcome` | press_review.py:116-132 | the query yields exactly one paper block and a one-row batch |
| `Scenarios.ScenarioFreshStore` | press_review.py:153-154 | with no stored table the run stores the one row and prints no count |
| `Scenarios.ScenarioMergeIntoEmpty` | press_review.py:145-151 | merging one new row into an empty stored table reports one new entry |
| `Scenarios.ScenarioExistingStore` | press_review.py:145-152 | with an empty stored table the run stores the one row and reports one new entry |
| `Scenarios.ScenarioEmptyResultStopsRun` | press_review.py:116-121 | a first query without `IdList` halts the run before the second query, with nothing stored |

## Left out

- The Entrez `esearch`, `efetch` and `read` calls and the email and API key setup (press_review.py:31-33, 107-113): network I/O; the model takes the parsed results as the total `search` and `fetch` parameters, so a failing call, whose exception would end the run like an extraction error, is not modelled.
- `pd.to_datetime(..., dayfirst=True)` (press_review.py:75-77): library date parsing; the date is kept as the unparsed day, month and year of the first `ArticleDate` entry, and a parse failure is not modelled.
- Missing `Day`, `Month` or `Year` keys inside an `ArticleDate` entry: the entry is modelled with all three fields, so that KeyError is not modelled.
- pandas DataFrame mechanics and the CSV read and write round trip (press_review.py:91, 146, 152, 154): rows are plain sequences; NaN titles, type coercion on reload and reading an empty CSV written for an empty batch are not modelled.
- The HTML template `str.format`, the output file path with the current directory and date, file writing and URL building (press_review.py:134-139): I/O on an external template; the model yields the newsletter body that is substituted.
- Opening the browser and the operating-system check (press_review.py:140-143): user-interface side effects.
- `exit()` as process termination and the printed messages (press_review.py:120-121, 151, 156): modelled as the `Exited` halt and the `newEntries` count.
- main.py: YAML configuration and template loading, pure I/O and wiring.
- `PressReviewer.FetchPapers`: the printed count and the final table of a completed query are stated (`PressReviewer.DistinctKeysReportOwnMerge`) only when no two queries share a file key; when two queries collide (`Scenarios.FileKeysCollide`), the later one merges into the table the earlier one left, and no lemma states that chain.

=== FILE: digest.dfy ===
/**
 Digest assembly: which fetched papers reach the newsletter and the new batch,
 and the HTML fragment each contributes.
 */
module Digest {
  import opened Optional
  import opened Text
  import opened PubmedTree
  import opened PaperDetails

  /** A paper is published when its title, authors and abstract are all non-empty. */
  predicate Complete(p: Paper)
  {
    p.title != "" && p.author != "" && p.abstractText != ""
  }

  /**
   An extracted article is published exactly when it has a non-empty title, an author list
   that is absent (the sentinel) or non-empty, and an `AbstractText` that is a non-empty list
   or a non-empty string. A list of empty segments counts: `[""]` yields the abstract " ".
   */
  lemma ExtractedArticlePublished(a: Article)
    requires ExtractArticle(a).Ok?
    ensures Complete(ExtractArticle(a).value) <==>
              && a.articleTitle.GetOr("") != ""
              && (a.authorList.None? || |a.authorList.value| > 0)
              && a.abstractNode.Some? && a.abstractNode.value.abstractText.Some?
              && match a.abstractNode.value.abstractText.value
                 case Segments(segs) => |segs| > 0
                 case Verbatim(text) => text != ""
                 case OtherShape => false
  {
  }

  /**
   The HTML block of one published paper: the title as a heading, then the authors and the
   abstract as paragraphs, closed by a rule.
   */
  function Fragment(p: Paper): (f: string)
    ensures |f| == |p.title| + |p.author| + |p.abstractText| + 36
    ensures f[..4] == "<h2>" && f[4..4 + |p.title|] == p.title
    ensures f[4 + |p.title|..21 + |p.title|] == "</h2><p>Authors: "
    ensures f[21 + |p.title|..21 + |p.title| + |p.author|] == p.author
    ensures f[21 + |p.title| + |p.author|..28 + |p.title| + |p.author|] == "</p><p>"
    ensures f[28 + |p.title| + |p.author|..|f| - 8] == p.abstractText
    ensures f[|f| - 8..] == "</p><hr>"
  {
    var head := "<h2>" + p.title + "</h2><p>Authors: ";
    var body := head + p.author + "</p><p>";
    var f := body + p.abstractText + "</p><hr>";
    assert f[..|body|] == body && f[|body|..] == p.abstractText + "</p><hr>";
    assert body[..|head|] == head && body[|head|..] == p.author + "</p><p>";
    f
  }

  /** The published papers, in fetch order. */
  function KeepComplete(papers: seq<Paper>): seq<Paper>
  {
    if |papers| == 0 then []
    else (if Complete(papers[0]) then [papers[0]] else []) + KeepComplete(papers[1..])
  }

  /** Every kept paper is complete, and a paper is kept exactly when it was fetched and is complete. */
  lemma {:induction false} KeepCompleteSound(papers: seq<Paper>)
    ensures |KeepComplete(papers)| <= |papers|
    ensures forall i :: 0 <= i < |KeepComplete(papers)| ==> Complete(KeepComplete(papers)[i])
    ensures forall p :: p in KeepComplete(papers) <==> p in papers && Complete(p)
  {
    if |papers| > 0 {
      KeepCompleteSound(papers[1..]);
      assert papers == [papers[0]] + papers[1..];
    }
  }

  /** Filtering preserves order: the papers kept from a split list are those kept from each half. */
  lemma {:induction false} KeepCompleteSplit(a: seq<Paper>, b: seq<Paper>)
    ensures KeepComplete(a + b) == KeepComplete(a) + KeepComplete(b)
  {
    if |a| == 0 {
      assert a + b == b;
    } else {
      var head := if Complete(a[0]) then [a[0]] else [];
      assert (a + b)[0] == a[0] && (a + b)[1..] == a[1..] + b;
      KeepCompleteSplit(a[1..], b);
      calc {
        KeepComplete(a + b);
        head + KeepComplete(a[1..] + b);
        head + (KeepComplete(a[1..]) + KeepComplete(b));
        (head + KeepComplete(a[1..])) + KeepComplete(b);
        KeepComplete(a) + KeepComplete(b);
      }
    }
  }

  function Fragments(batch: seq<Paper>): seq<string>
  {
    seq(|batch|, i requires 0 <= i < |batch| => Fragment(batch[i]))
  }

  /** The newsletter body: one fragment per published paper, in batch order. */
  function Render(batch: seq<Paper>): string
  {
    Concat(Fragments(batch))
  }

  /** Rendering a split batch renders each half in turn. */
  lemma RenderSplit(a: seq<Paper>, b: seq<Paper>)
    ensures Render(a + b) == Render(a) + Render(b)
  {
    assert Fragments(a + b) == Fragments(a) + Fragments(b);
    ConcatSplit(Fragments(a), Fragments(b));
  }

  /** The body is empty exactly when nothing was published. */
  lemma RenderEmptyIff(batch: seq<Paper>)
    ensures Render(batch) == "" <==> |batch| == 0
  {
    ConcatIsEmpty(Fragments(batch));
    if |batch| > 0 {
      assert Fragments(batch)[0] == Fragment(batch[0]);
    }
  }

  /** One step of the filter: a complete paper is appended, any other is dropped. */
  lemma KeepCompleteSnoc(papers: seq<Paper>, p: Paper)
    ensures KeepComplete(papers + [p]) == KeepComplete(papers) + (if Complete(p) then [p] else [])
  {
    KeepCompleteSplit(papers, [p]);
    assert KeepComplete([p]) == (if Complete(p) then [p] else []) + KeepComplete([]);
  }

  /** Rendering one more paper appends its fragment. */
  lemma RenderStep(batch: seq<Paper>, p: Paper)
    ensures Render(batch + [p]) == Render(batch) + Fragment(p)
  {
    assert Fragments(batch + [p]) == Fragments(batch) + [Fragment(p)];
    ConcatAppend(Fragments(batch), Fragment(p));
  }

  /** One iteration of the digest loop: a complete paper appends its fragment to the body and its row to the batch. */
  method AppendIfComplete(content: string, batch: seq<Paper>, p: Paper) returns (content': string, batch': seq<Paper>)
    requires content == Render(batch)
    ensures batch' == batch + (if Complete(p) then [p] else [])
    ensures content' == Render(batch')
  {
    content', batch' := content, batch;
    if p.title != "" && p.author != "" && p.abstractText != "" {
      var paperHtml := Fragment(p);
      RenderStep(batch, p);
      content' := content + paperHtml;
      batch' := batch + [p];
    } else {
      assert batch + [] == batch;
    }
  }

  /**
   The filter-and-append loop as written: for each fetched paper that is complete,
   append its fragment to the body and its row to the batch.
   */
  method AssembleDigest(papers: seq<Paper>) returns (content: string, batch: seq<Paper>)
    ensures batch == KeepComplete(papers)
    ensures content == Render(batch)
  {
    content := "";
    batch := [];
    for i := 0 to |papers|
      invariant batch == KeepComplete(papers[..i])
      invariant content == Render(batch)
    {
      assert papers[..i + 1] == papers[..i] + [papers[i]];
      KeepCompleteSnoc(papers[..i], papers[i]);
      content, batch := AppendIfComplete(content, batch, papers[i]);
    }
    assert papers[..|papers|] == papers;
  }
}

=== FILE: optional.dfy ===
/** Failure-compatible wrappers for values the parsed record may or may not hold. */
module Optional {

  /** A field of the parsed record tree that may be absent. */
  datatype Option<+T> = None | Some(value: T) {

    /** The held value, or `default` when the field is absent. */
    function GetOr(default: T): T {
      match this
      case Some(v) => v
      case None => default
    }
  }

  /** The outcome of an operation that raises an error in `press_review.py`. */
  datatype Result<+T, +E> = Ok(value: T) | Err(error: E)
}

=== FILE: paper_details.dfy ===
/**
 Record extraction: one parsed efetch result becomes one paper row
 (`PressReviewer.fetch_paper_details`).
 */
module PaperDetails {
  import opened Optional
  import opened Text
  import opened PubmedTree

  const NoLastNameFound: string := "NoLastNameFound"
  const NoInitialsFound: string := "NoInitialsFound"
  const NoAuthorsFound: string := "NoAuthorsFound"

  /** One paper: the Title, Author, Abstract, Date and Type columns of a query's table. */
  datatype Paper = Paper(
    title: string,
    author: string,
    abstractText: string,
    date: Option<DateParts>,
    pubType: string)

  /** The exceptions the extraction raises. */
  datatype FetchError =
    | NoPubmedArticleKey   // the result has no `PubmedArticle` list (KeyError)
    | NoAbstractText       // an `Abstract` element without `AbstractText` (KeyError)
    | NoUsableArticle      // no entry has both `MedlineCitation` and `Article`, so no row is bound

  // ---------------------------------------------------------------- authors

  /**
   What one author contributes to the Author column: the last name (or its sentinel), one
   space, the initials (or their sentinel) and a closing comma.
   */
  function AuthorEntry(a: Author): (e: string)
    ensures var last, init := a.lastName.GetOr(NoLastNameFound), a.initials.GetOr(NoInitialsFound);
            && |e| == |last| + |init| + 2
            && e[..|last|] == last
            && e[|last|] == ' '
            && e[|last| + 1..|e| - 1] == init
            && e[|e| - 1] == ','
  {
    a.lastName.GetOr(NoLastNameFound) + " " + a.initials.GetOr(NoInitialsFound) + ","
  }

  function AuthorEntries(list: seq<Author>): seq<string>
  {
    seq(|list|, i requires 0 <= i < |list| => AuthorEntry(list[i]))
  }

  /** The Author column for a present `AuthorList`: every entry, in list order, with nothing between. */
  function AuthorsOf(list: seq<Author>): string
  {
    Concat(AuthorEntries(list))
  }

  /** The authors are listed in order: the column of a split list is the columns of its halves. */
  lemma AuthorsOfSplit(a: seq<Author>, b: seq<Author>)
    ensures AuthorsOf(a + b) == AuthorsOf(a) + AuthorsOf(b)
  {
    assert AuthorEntries(a + b) == AuthorEntries(a) + AuthorEntries(b);
    ConcatSplit(AuthorEntries(a), AuthorEntries(b));
  }

  /** A list of one author yields exactly that author's entry. */
  lemma AuthorsOfSingle(a: Author)
    ensures AuthorsOf([a]) == AuthorEntry(a)
  {
    assert AuthorEntries([a]) == [AuthorEntry(a)];
    ConcatAppend([], AuthorEntry(a));
    assert [] + [AuthorEntry(a)] == [AuthorEntry(a)];
  }

  /** A present author list yields an empty column exactly when it has no entries. */
  lemma AuthorsOfEmptyIff(list: seq<Author>)
    ensures AuthorsOf(list) == "" <==> |list| == 0
  {
    ConcatIsEmpty(AuthorEntries(list));
    if |list| > 0 {
      assert AuthorEntries(list)[0] == AuthorEntry(list[0]);
    }
  }

  /** The Author column: the sentinel when `AuthorList` is absent, the entries otherwise. */
  function AuthorsField(list: Option<seq<Author>>): (r: string)
    ensures list.None? ==> r == NoAuthorsFound
    ensures list.Some? ==> (r == "" <==> |list.value| == 0)
  {
    match list
    case None => NoAuthorsFound
    case Some(l) => AuthorsOfEmptyIff(l); AuthorsOf(l)
  }

  /** One step of the author loop over a growing prefix. */
  lemma AuthorsOfSnoc(list: seq<Author>, i: nat)
    requires i < |list|
    ensures AuthorsOf(list[..i + 1]) == AuthorsOf(list[..i]) + AuthorEntry(list[i])
  {
    assert AuthorEntries(list[..i + 1]) == AuthorEntries(list[..i]) + [AuthorEntry(list[i])];
    ConcatAppend(AuthorEntries(list[..i]), AuthorEntry(list[i]));
  }

  /** The author loop as written: accumulate `lastname + ' ' + initials + ','` per author. */
  method JoinAuthors(list: seq<Author>) returns (authors: string)
    ensures authors == AuthorsOf(list)
    ensures authors == "" <==> |list| == 0
  {
    authors := "";
    for i := 0 to |list|
      invariant authors == AuthorsOf(list[..i])
    {
      var author := list[i];
      var lastname := if author.lastName.Some? then author.lastName.value else NoLastNameFound;
      var initials := if author.initials.Some? then author.initials.value else NoInitialsFound;
      var entry := lastname + " " + initials + ",";
      assert entry == AuthorEntry(author);
      AuthorsOfSnoc(list, i);
      authors := authors + entry;
    }
    assert list[..|list|] == list;
    AuthorsOfEmptyIff(list);
  }

  // --------------------------------------------------------------- abstract

  /** Each abstract segment preceded by one space. */
  function SpacedSegments(segs: seq<string>): seq<string>
  {
    seq(|segs|, i requires 0 <= i < |segs| => " " + segs[i])
  }

  /** The Abstract column for a list of segments. */
  function JoinedSegments(segs: seq<string>): string
  {
    Concat(SpacedSegments(segs))
  }

  /** One step of the segment loop over a growing prefix. */
  lemma JoinedSegmentsSnoc(segs: seq<string>, i: nat)
    requires i < |segs|
    ensures JoinedSegments(segs[..i + 1]) == JoinedSegments(segs[..i]) + (" " + segs[i])
  {
    assert SpacedSegments(segs[..i + 1]) == SpacedSegments(segs[..i]) + [" " + segs[i]];
    ConcatAppend(SpacedSegments(segs[..i]), " " + segs[i]);
  }

  /** The segment loop as written: accumulate `' ' + segment` per segment. */
  method JoinSegments(segs: seq<string>) returns (abstractText: string)
    ensures abstractText == JoinedSegments(segs)
  {
    abstractText := "";
    for i := 0 to |segs|
      invariant abstractText == JoinedSegments(segs[..i])
    {
      JoinedSegmentsSnoc(segs, i);
      abstractText := abstractText + (" " + segs[i]);
    }
    assert segs[..|segs|] == segs;
  }

  /** A non-empty segment list yields the segments joined by single spaces, after one leading space. */
  lemma {:induction false} JoinedSegmentsSpaceSeparated(segs: seq<string>)
    requires |segs| > 0
    ensures JoinedSegments(segs) == " " + JoinWith(segs, " ")
  {
    assert SpacedSegments(segs)[0] == " " + segs[0];
    assert SpacedSegments(segs)[1..] == SpacedSegments(segs[1..]);
    assert JoinedSegments(segs) == (" " + segs[0]) + JoinedSegments(segs[1..]);
    if |segs| > 1 {
      JoinedSegmentsSpaceSeparated(segs[1..]);
    } else {
      assert JoinedSegments(segs[1..]) == "";
    }
  }

  /** A segment list yields an empty abstract exactly when it has no segments. */
  lemma JoinedSegmentsEmptyIff(segs: seq<string>)
    ensures JoinedSegments(segs) == "" <==> |segs| == 0
  {
    ConcatIsEmpty(SpacedSegments(segs));
    if |segs| > 0 {
      assert SpacedSegments(segs)[0] == " " + segs[0];
    }
  }

  /** The Abstract column, or the KeyError of an `Abstract` element without `AbstractText`. */
  function AbstractField(node: Option<AbstractNode>): (r: Result<string, FetchError>)
    ensures node.None? ==> r == Ok("")
    ensures node.Some? && node.value.abstractText.None? ==> r == Err(NoAbstractText)
    ensures node.Some? && node.value.abstractText.Some? && node.value.abstractText.value.Segments? ==>
              var segs := node.value.abstractText.value.segments;
              && r.Ok?
              && (r.value == "" <==> |segs| == 0)
              && (|segs| > 0 ==> r.value == " " + JoinWith(segs, " "))
    ensures node.Some? && node.value.abstractText.Some? && node.value.abstractText.value.Verbatim? ==>
              r == Ok(node.value.abstractText.value.text)
    ensures node.Some? && node.value.abstractText == Some(OtherShape) ==> r == Ok("")
  {
    match node
    case None => Ok("")
    case Some(n) =>
      match n.abstractText
      case None => Err(NoAbstractText)
      case Some(Segments(segs)) =>
        JoinedSegmentsEmptyIff(segs);
        if |segs| > 0 then JoinedSegmentsSpaceSeparated(segs); Ok(JoinedSegments(segs))
        else Ok(JoinedSegments(segs))
      case Some(Verbatim(s)) => Ok(s)
      case Some(OtherShape) => Ok("")
  }

  // ---------------------------------------------------------------- article

  /** The first element of an optional list, if the list is present and non-empty. */
  function FirstOf<T>(list: Option<seq<T>>): Option<T>
  {
    if list.Some? && |list.value| > 0 then Some(list.value[0]) else None
  }

  /** The row extracted from one `Article` element. */
  function ExtractArticle(a: Article): (r: Result<Paper, FetchError>)
    ensures r.Err? <==> a.abstractNode.Some? && a.abstractNode.value.abstractText.None?
    ensures r.Err? ==> r.error == NoAbstractText
    ensures r.Ok? ==> r.value.title == a.articleTitle.GetOr("")
    ensures r.Ok? && a.authorList.None? ==> r.value.author == NoAuthorsFound
    ensures r.Ok? && a.authorList.Some? ==> (r.value.author == "" <==> |a.authorList.value| == 0)
    ensures r.Ok? && a.abstractNode.None? ==> r.value.abstractText == ""
    ensures r.Ok? ==> r.value.author == AuthorsField(a.authorList)
    ensures r.Ok? ==> AbstractField(a.abstractNode) == Ok(r.value.abstractText)
    ensures r.Ok? ==> (r.value.date.Some? <==> a.articleDate.Some? && |a.articleDate.value| > 0)
    ensures r.Ok? && r.value.date.Some? ==> r.value.date.value == a.articleDate.value[0]
    ensures r.Ok? && a.publicationTypeList.Some? && |a.publicationTypeList.value| > 0 ==>
              r.value.pubType == a.publicationTypeList.value[0]
    ensures r.Ok? && (a.publicationTypeList.None? || |a.publicationTypeList.value| == 0) ==>
              r.value.pubType == ""
  {
    match AbstractField(a.abstractNode)
    case Err(e) => Err(e)
    case Ok(abs) =>
      Ok(Paper(
        a.articleTitle.GetOr(""),
        AuthorsField(a.authorList),
        abs,
        FirstOf(a.articleDate),
        FirstOf(a.publicationTypeList).GetOr("")))
  }

  // ------------------------------------------------------------ the record

  /** An entry the extraction uses: it has `MedlineCitation` holding `Article`. */
  predicate Usable(e: PubmedArticle)
  {
    e.medlineCitation.Some? && e.medlineCitation.value.article.Some?
  }

  function ArticleOf(e: PubmedArticle): Article
    requires Usable(e)
  {
    e.medlineCitation.value.article.value
  }

  /** `entries[i]` is usable and no earlier entry is. */
  predicate IsFirstUsable(entries: seq<PubmedArticle>, i: int)
  {
    0 <= i < |entries| && Usable(entries[i]) && forall k :: 0 <= k < i ==> !Usable(entries[k])
  }

  /** The article of the first usable entry; later entries are never looked at. */
  function FirstUsable(entries: seq<PubmedArticle>): (r: Option<Article>)
    ensures r.None? <==> forall i :: 0 <= i < |entries| ==> !Usable(entries[i])
    ensures forall i :: IsFirstUsable(entries, i) ==> r == Some(ArticleOf(entries[i]))
  {
    if |entries| == 0 then None
    else if Usable(entries[0]) then Some(ArticleOf(entries[0]))
    else
      var r := FirstUsable(entries[1..]);
      assert forall i :: 1 <= i < |entries| ==> entries[i] == entries[1..][i - 1];
      assert forall i :: IsFirstUsable(entries, i) ==> IsFirstUsable(entries[1..], i - 1);
      r
  }

  /** The row of one efetch result, or the error the extraction raises. */
  function Extract(record: FetchedRecord): (r: Result<Paper, FetchError>)
    ensures record.pubmedArticle.None? ==> r == Err(NoPubmedArticleKey)
    ensures record.pubmedArticle.Some? ==>
              ((forall i :: 0 <= i < |record.pubmedArticle.value| ==> !Usable(record.pubmedArticle.value[i]))
               <==> r == Err(NoUsableArticle))
    ensures forall i :: record.pubmedArticle.Some? && IsFirstUsable(record.pubmedArticle.value, i) ==>
              r == ExtractArticle(ArticleOf(record.pubmedArticle.value[i]))
  {
    match record.pubmedArticle
    case None => Err(NoPubmedArticleKey)
    case Some(entries) =>
      match FirstUsable(entries)
      case None => Err(NoUsableArticle)
      case Some(a) => ExtractArticle(a)
  }

  /** The entry loop as written: skip unusable entries, extract from the first usable one and stop. */
  method FetchPaperDetails(record: FetchedRecord) returns (r: Result<Paper, FetchError>)
    ensures r == Extract(record)
  {
    if record.pubmedArticle.None? {
      return Err(NoPubmedArticleKey);
    }
    var entries := record.pubmedArticle.value;
    for i := 0 to |entries|
      invariant forall k :: 0 <= k < i ==> !Usable(entries[k])
    {
      if Usable(entries[i]) {
        assert IsFirstUsable(entries, i);
        return ExtractArticle(ArticleOf(entries[i]));
      }
    }
    return Err(NoUsableArticle);
  }
}

=== FILE: press_reviewer.dfy ===
/**
 One query run (`PressReviewer.generate_html_from_query`) and the run over all
 configured queries (`PressReviewer.fetch_papers`). The PubMed search and fetch
 calls are parameters; the store is a map from file key to table.
 */
module PressReviewer {
  import opened Optional
  import opened Text
  import opened PubmedTree
  import opened PaperDetails
  import opened Digest
  import opened RecordStore

  type PubmedId = string

  /** The parsed esearch result; its `IdList` key may be missing. */
  datatype SearchResult = SearchResult(idList: Option<seq<PubmedId>>)

  /** What one query run produces before it touches the store. */
  datatype QueryOutcome =
    | NoSearchResults                                  // `IdList` missing: the process exits
    | FetchFailed(id: PubmedId, error: FetchError)     // an extraction raised: uncaught
    | Generated(content: string, batch: seq<Paper>)    // the newsletter body and the new rows

  /** The name under which a query's table is stored: spaces become underscores. */
  function FileKey(query: string): (key: string)
    ensures |key| == |query|
    ensures ' ' !in key
    ensures forall i :: 0 <= i < |query| && query[i] != ' ' ==> key[i] == query[i]
    ensures forall i :: 0 <= i < |query| && query[i] == ' ' ==> key[i] == '_'
  {
    ReplaceChar(query, ' ', '_')
  }

  /** A key is its own key. */
  lemma FileKeyIdempotent(query: string)
    ensures FileKey(FileKey(query)) == FileKey(query)
  {
  }

  /** The extraction applied to the record fetched for an identifier. */
  function Details(fetch: PubmedId -> FetchedRecord): PubmedId -> Result<Paper, FetchError>
  {
    id => Extract(fetch(id))
  }

  /** The papers of all identifiers in order, or the first identifier whose extraction fails. */
  function FetchAll(ids: seq<PubmedId>, details: PubmedId -> Result<Paper, FetchError>): (r: Result<seq<Paper>, (PubmedId, FetchError)>)
    ensures r.Ok? <==> forall i :: 0 <= i < |ids| ==> details(ids[i]).Ok?
    ensures r.Ok? ==> |r.value| == |ids|
    ensures r.Ok? ==> forall i :: 0 <= i < |ids| ==> details(ids[i]) == Ok(r.value[i])
    ensures r.Err? ==> exists i :: FirstFailure(ids, details, i) && r.error == (ids[i], details(ids[i]).error)
  {
    if |ids| == 0 then Ok([])
    else
      match details(ids[0])
      case Err(e) =>
        assert FirstFailure(ids, details, 0);
        Err((ids[0], e))
      case Ok(p) =>
        var rest := FetchAll(ids[1..], details);
        assert forall i :: 1 <= i < |ids| ==> ids[i] == ids[1..][i - 1];
        match rest
        case Err(e) =>
          var i :| FirstFailure(ids[1..], details, i) && e == (ids[1..][i], details(ids[1..][i]).error);
          assert FirstFailure(ids, details, i + 1);
          Err(e)
        case Ok(ps) => Ok([p] + ps)
  }

  /** `ids[i]` is the first identifier whose extraction fails. */
  predicate FirstFailure(ids: seq<PubmedId>, details: PubmedId -> Result<Paper, FetchError>, i: int)
  {
    0 <= i < |ids| && details(ids[i]).Err?
    && forall k :: 0 <= k < i ==> details(ids[k]).Ok?
  }

  /** The first failing identifier is unique, and it decides the error. */
  lemma FetchAllFailsAt(ids: seq<PubmedId>, details: PubmedId -> Result<Paper, FetchError>, i: int)
    requires FirstFailure(ids, details, i)
    ensures FetchAll(ids, details) == Err((ids[i], details(ids[i]).error))
  {
    var r := FetchAll(ids, details);
    var j :| FirstFailure(ids, details, j) && r.error == (ids[j], details(ids[j]).error);
    assert i == j;
  }

  /** When every identifier extracts, the papers are the extracted rows in order. */
  lemma FetchAllSucceeds(ids: seq<PubmedId>, details: PubmedId -> Result<Paper, FetchError>, papers: seq<Paper>)
    requires |papers| == |ids|
    requires forall i :: 0 <= i < |ids| ==> details(ids[i]) == Ok(papers[i])
    ensures FetchAll(ids, details) == Ok(papers)
  {
    var r := FetchAll(ids, details);
    assert r.Ok?;
    assert forall i :: 0 <= i < |ids| ==> r.value[i] == papers[i];
    assert r.value == papers;
  }

  /**
   One query run, given the search result and the extraction of each identifier's fetched
   record (`Details(fetch)` in a real run).
   */
  function RunQuery(search: SearchResult, details: PubmedId -> Result<Paper, FetchError>): (r: QueryOutcome)
    ensures r.NoSearchResults? <==> search.idList.None?
    ensures search.idList == Some([]) ==> r == Generated("", [])
    ensures r.FetchFailed? ==> search.idList.Some? && FetchAll(search.idList.value, details) == Err((r.id, r.error))
    ensures r.Generated? ==> forall i :: 0 <= i < |r.batch| ==> Complete(r.batch[i])
    ensures r.Generated? ==> r.content == Render(r.batch)
    ensures r.Generated? ==> search.idList.Some? && FetchAll(search.idList.value, details).Ok?
                               && r.batch == KeepComplete(FetchAll(search.idList.value, details).value)
  {
    match search.idList
    case None => NoSearchResults
    case Some(ids) =>
      match FetchAll(ids, details)
      case Err((id, e)) => FetchFailed(id, e)
      case Ok(papers) =>
        var batch := KeepComplete(papers);
        KeepCompleteSound(papers);
        Generated(Render(batch), batch)
  }

  /**
   The query run as written: abort without `IdList`, then extract every identifier in order,
   appending the fragment and row of every complete paper.
   */
  method GenerateFromQuery(search: SearchResult, details: PubmedId -> Result<Paper, FetchError>) returns (r: QueryOutcome)
    ensures r == RunQuery(search, details)
  {
    if search.idList.None? {
      return NoSearchResults;
    }
    var ids := search.idList.value;
    var content := "";
    var batch: seq<Paper> := [];
    ghost var papers: seq<Paper> := [];
    for i := 0 to |ids|
      invariant |papers| == i
      invariant forall k :: 0 <= k < i ==> details(ids[k]) == Ok(papers[k])
      invariant batch == KeepComplete(papers)
      invariant content == Render(batch)
    {
      var paper := details(ids[i]);
      if paper.Err? {
        assert FirstFailure(ids, details, i);
        FetchAllFailsAt(ids, details, i);
        return FetchFailed(ids[i], paper.error);
      }
      var p := paper.value;
      KeepCompleteSnoc(papers, p);
      papers := papers + [p];
      content, batch := AppendIfComplete(content, batch, p);
    }
    FetchAllSucceeds(ids, details, papers);
    return Generated(content, batch);
  }

  // ------------------------------------------------------------ the whole run

  /** The per-query tables, by file key. */
  type Store = map<string, seq<Paper>>

  /** The store after merging a query's batch into the table under its key, and the count printed. */
  function Absorb(store: Store, query: string, batch: seq<Paper>): (r: (Store, Option<nat>))
    ensures r.0.Keys == store.Keys + {FileKey(query)}
    ensures forall k :: k in store && k != FileKey(query) ==> r.0[k] == store[k]
    ensures r.0[FileKey(query)] == Merge(if FileKey(query) in store then Some(store[FileKey(query)]) else None, batch).table
    ensures FileKey(query) !in store ==> r.0[FileKey(query)] == batch && r.1.None?
    ensures r.1 == Merge(if FileKey(query) in store then Some(store[FileKey(query)]) else None, batch).newEntries
  {
    var key := FileKey(query);
    var u := Merge(if key in store then Some(store[key]) else None, batch);
    (store[key := u.table], u.newEntries)
  }

  /** A completed query: its newsletter body and the "N found" count, if one was printed. */
  datatype QueryReport = QueryReport(query: string, content: string, newEntries: Option<nat>)

  /** Why a run stopped before the last query. */
  datatype Halt =
    | Exited(query: string)                                    // `exit()` on a missing `IdList`
    | Crashed(query: string, id: PubmedId, error: FetchError)  // an uncaught extraction error

  datatype Run = Run(store: Store, reports: seq<QueryReport>, halt: Option<Halt>)

  function HaltedQuery(h: Halt): string
  {
    match h
    case Exited(q) => q
    case Crashed(q, _, _) => q
  }

  function KeysOf(queries: seq<string>): set<string>
  {
    set q | q in queries :: FileKey(q)
  }

  /** The query runner `fetch_papers` calls, for a given search and fetch. */
  function Runner(search: string -> SearchResult, fetch: PubmedId -> FetchedRecord): string -> QueryOutcome
  {
    q => RunQuery(search(q), Details(fetch))
  }

  /** The queries in order, each run by `runner`, until the first one that halts the process. */
  function FetchPapers(queries: seq<string>, runner: string -> QueryOutcome, store: Store): (run: Run)
    ensures |run.reports| <= |queries|
    ensures forall i :: 0 <= i < |run.reports| ==> run.reports[i].query == queries[i]
    ensures run.halt.None? <==> |run.reports| == |queries|
    ensures run.halt.Some? ==> HaltedQuery(run.halt.value) == queries[|run.reports|]
    ensures run.halt.Some? && run.halt.value.Exited? ==> runner(queries[|run.reports|]).NoSearchResults?
    ensures run.halt.Some? && run.halt.value.Crashed? ==>
              runner(queries[|run.reports|]) == FetchFailed(run.halt.value.id, run.halt.value.error)
    ensures forall i :: 0 <= i < |run.reports| ==>
              runner(queries[i]).Generated? && run.reports[i].content == runner(queries[i]).content
  {
    if |queries| == 0 then Run(store, [], None)
    else
      var q := queries[0];
      assert forall i :: 1 <= i < |queries| ==> queries[i] == queries[1..][i - 1];
      match runner(q)
      case NoSearchResults => Run(store, [], Some(Exited(q)))
      case FetchFailed(id, e) => Run(store, [], Some(Crashed(q, id, e)))
      case Generated(content, batch) =>
        var (next, count) := Absorb(store, q, batch);
        var rest := FetchPapers(queries[1..], runner, next);
        Run(rest.store, [QueryReport(q, content, count)] + rest.reports, rest.halt)
  }

  /** A run writes only under the keys of its queries; every other table is left as it was. */
  lemma {:induction false} FetchPapersTouchesOnlyQueryKeys(queries: seq<string>, runner: string -> QueryOutcome, store: Store)
    ensures var run := FetchPapers(queries, runner, store);
            && run.store.Keys <= store.Keys + KeysOf(queries)
            && forall k :: k in store && k !in KeysOf(queries) ==> k in run.store && run.store[k] == store[k]
  {
    if |queries| > 0 {
      var q := queries[0];
      assert KeysOf(queries) == {FileKey(q)} + KeysOf(queries[1..]);
      if runner(q).Generated? {
        var next := Absorb(store, q, runner(q).batch).0;
        FetchPapersTouchesOnlyQueryKeys(queries[1..], runner, next);
      }
    }
  }

  /** A run that completes its first query: that query's report, then the run of the rest. */
  lemma FetchPapersHead(queries: seq<string>, runner: string -> QueryOutcome, store: Store)
    requires 0 < |FetchPapers(queries, runner, store).reports|
    ensures runner(queries[0]).Generated?
    ensures var absorbed := Absorb(store, queries[0], runner(queries[0]).batch);
            var rest := FetchPapers(queries[1..], runner, absorbed.0);
            var run := FetchPapers(queries, runner, store);
            && run.store == rest.store
            && run.reports == [QueryReport(queries[0], runner(queries[0]).content, absorbed.1)] + rest.reports
  {
  }

  /**
   When no two queries share a file key, each completed query prints the count of its own merge,
   and its table ends the run as that merge left it.
   */
  lemma {:induction false} DistinctKeysReportOwnMerge(queries: seq<string>, runner: string -> QueryOutcome, store: Store, i: nat)
    requires forall a, b :: 0 <= a < b < |queries| ==> FileKey(queries[a]) != FileKey(queries[b])
    requires i < |FetchPapers(queries, runner, store).reports|
    ensures var key := FileKey(queries[i]);
            var u := Merge(if key in store then Some(store[key]) else None, runner(queries[i]).batch);
            var run := FetchPapers(queries, runner, store);
            && run.reports[i].newEntries == u.newEntries
            && key in run.store && run.store[key] == u.table
  {
    FetchPapersHead(queries, runner, store);
    var q := queries[0];
    var next := Absorb(store, q, runner(q).batch).0;
    assert forall k :: 0 <= k < |queries| - 1 ==> queries[1..][k] == queries[k + 1];
    if i == 0 {
      assert FileKey(q) !in KeysOf(queries[1..]);
      FetchPapersTouchesOnlyQueryKeys(queries[1..], runner, next);
    } else {
      assert FileKey(queries[i]) != FileKey(q);
      DistinctKeysReportOwnMerge(queries[1..], runner, next, i - 1);
    }
  }

  /** A query without `IdList` ends the process there: no later query runs. */
  lemma {:induction false} MissingIdListHaltsRun(queries: seq<string>, runner: string -> QueryOutcome, store: Store, j: nat)
    requires j < |queries|
    requires runner(queries[j]).NoSearchResults?
    requires forall i :: 0 <= i < j ==> runner(queries[i]).Generated?
    ensures FetchPapers(queries, runner, store).halt == Some(Exited(queries[j]))
    ensures |FetchPapers(queries, runner, store).reports| == j
  {
    if j > 0 {
      var next := Absorb(store, queries[0], runner(queries[0]).batch).0;
      assert forall i :: 0 <= i < j - 1 ==> queries[1..][i] == queries[i + 1];
      MissingIdListHaltsRun(queries[1..], runner, next, j - 1);
    }
  }

  /**
   An extraction error ends the process there too: no later query runs. This follows from the
   contract of `FetchPapers` alone.
   */
  lemma FetchFailureHaltsRun(queries: seq<string>, runner: string -> QueryOutcome, store: Store, j: nat)
    requires j < |queries|
    requires runner(queries[j]).FetchFailed?
    requires forall i :: 0 <= i < j ==> runner(queries[i]).Generated?
    ensures FetchPapers(queries, runner, store).halt ==
              Some(Crashed(queries[j], runner(queries[j]).id, runner(queries[j]).error))
    ensures |FetchPapers(queries, runner, store).reports| == j
  {
  }

  /** When every query generates its digest, every query completes. */
  lemma {:induction false} AllQueriesComplete(queries: seq<string>, runner: string -> QueryOutcome, store: Store)
    requires forall i :: 0 <= i < |queries| ==> runner(queries[i]).Generated?
    ensures FetchPapers(queries, runner, store).halt.None?
    ensures |FetchPapers(queries, runner, store).reports| == |queries|
  {
    if |queries| > 0 {
      var next := Absorb(store, queries[0], runner(queries[0]).batch).0;
      assert forall i :: 0 <= i < |queries| - 1 ==> queries[1..][i] == queries[i + 1];
      AllQueriesComplete(queries[1..], runner, next);
    }
  }

  /** The search runner halts exactly on a search result without `IdList`. */
  lemma RunnerExitsOnMissingIdList(search: string -> SearchResult, fetch: PubmedId -> FetchedRecord, q: string)
    ensures Runner(search, fetch)(q).NoSearchResults? <==> search(q).idList.None?
  {
    assert Runner(search, fetch)(q) == RunQuery(search(q), Details(fetch));
  }
}

=== FILE: pubmed_tree.dfy ===
/**
 The parsed result of one PubMed `efetch` call, as the record extraction sees it.
 Every key the extraction tests with `in` is an `Option`; lists are sequences.
 */
module PubmedTree {
  import opened Optional

  /** One entry of `AuthorList`. */
  datatype Author = Author(lastName: Option<string>, initials: Option<string>)

  /** The shapes `AbstractText` can take: a list of segments, a single string, or anything else. */
  datatype AbstractText =
    | Segments(segments: seq<string>)
    | Verbatim(text: string)
    | OtherShape

  /** The `Abstract` element; its `AbstractText` key may be missing. */
  datatype AbstractNode = AbstractNode(abstractText: Option<AbstractText>)

  /** One entry of `ArticleDate`, kept as its unparsed day, month and year fields. */
  datatype DateParts = DateParts(day: string, month: string, year: string)

  /** The `Article` element of a citation. */
  datatype Article = Article(
    articleTitle: Option<string>,
    authorList: Option<seq<Author>>,
    abstractNode: Option<AbstractNode>,
    articleDate: Option<seq<DateParts>>,
    publicationTypeList: Option<seq<string>>)

  datatype MedlineCitation = MedlineCitation(article: Option<Article>)

  /** One entry of the `PubmedArticle` list. */
  datatype PubmedArticle = PubmedArticle(medlineCitation: Option<MedlineCitation>)

  /** The whole parsed efetch result; the `PubmedArticle` key itself may be missing. */
  datatype FetchedRecord = FetchedRecord(pubmedArticle: Option<seq<PubmedArticle>>)
}

=== FILE: record_store.dfy ===
/**
 The per-query record store: the stored table and the new batch are concatenated,
 stored rows first, and the first row of every title is kept.
 */
module RecordStore {
  import opened Optional
  import opened PaperDetails

  /** The titles occurring in `rows`. */
  function Titles(rows: seq<Paper>): set<string>
  {
    set r | r in rows :: r.title
  }

  /** No two rows share a title. */
  predicate DistinctTitles(rows: seq<Paper>)
  {
    forall i, j :: 0 <= i < j < |rows| ==> rows[i].title != rows[j].title
  }

  /** `rows[j]` is the first row carrying its title. */
  predicate FirstOfTitle(rows: seq<Paper>, j: int)
  {
    0 <= j < |rows| && forall k :: 0 <= k < j ==> rows[k].title != rows[j].title
  }

  lemma TitlesSplit(a: seq<Paper>, b: seq<Paper>)
    ensures Titles(a + b) == Titles(a) + Titles(b)
  {
    forall t | t in Titles(a + b) ensures t in Titles(a) + Titles(b) {
      var r :| r in a + b && r.title == t;
      assert r in a || r in b;
    }
    forall t | t in Titles(a) + Titles(b) ensures t in Titles(a + b) {
      if t in Titles(a) {
        var r :| r in a && r.title == t;
        assert r in a + b;
      } else {
        var r :| r in b && r.title == t;
        assert r in a + b;
      }
    }
  }

  lemma TitlesCons(rows: seq<Paper>)
    requires |rows| > 0
    ensures Titles(rows) == {rows[0].title} + Titles(rows[1..])
  {
    assert rows == [rows[0]] + rows[1..];
    TitlesSplit([rows[0]], rows[1..]);
    assert Titles([rows[0]]) == {rows[0].title};
  }

  /**
   Keep-first de-duplication by title, skipping titles already in `seen`
   (pandas' `drop_duplicates(subset=['Title'])` with `seen` empty).
   */
  function KeepFirst(rows: seq<Paper>, seen: set<string>): seq<Paper>
    decreases |rows|
  {
    if |rows| == 0 then []
    else if rows[0].title in seen then KeepFirst(rows[1..], seen)
    else [rows[0]] + KeepFirst(rows[1..], seen + {rows[0].title})
  }

  /**
   Keep-first de-duplication yields distinct titles, exactly the titles not already seen,
   only rows of the input, and no more rows than the input.
   */
  lemma {:induction false} KeepFirstSound(rows: seq<Paper>, seen: set<string>)
    ensures DistinctTitles(KeepFirst(rows, seen))
    ensures Titles(KeepFirst(rows, seen)) == Titles(rows) - seen
    ensures |KeepFirst(rows, seen)| <= |rows|
    ensures forall r :: r in KeepFirst(rows, seen) ==> r in rows
    decreases |rows|
  {
    if |rows| > 0 {
      TitlesCons(rows);
      if rows[0].title in seen {
        KeepFirstSound(rows[1..], seen);
      } else {
        var rest := KeepFirst(rows[1..], seen + {rows[0].title});
        KeepFirstSound(rows[1..], seen + {rows[0].title});
        TitlesCons([rows[0]] + rest);
        assert ([rows[0]] + rest)[1..] == rest;
      }
    }
  }

  /** The de-duplicated table: the first row of every title, in order. */
  function DropDuplicateTitles(rows: seq<Paper>): (table: seq<Paper>)
    ensures DistinctTitles(table)
    ensures Titles(table) == Titles(rows)
    ensures forall r :: r in table ==> r in rows
  {
    KeepFirstSound(rows, {});
    KeepFirst(rows, {})
  }

  /** The row kept for a title is the first row with that title. */
  lemma {:induction false} KeepFirstIsFirst(rows: seq<Paper>, seen: set<string>, i: int, j: int)
    requires 0 <= i < |KeepFirst(rows, seen)|
    requires FirstOfTitle(rows, j)
    requires rows[j].title == KeepFirst(rows, seen)[i].title
    ensures KeepFirst(rows, seen)[i] == rows[j]
    decreases |rows|
  {
    var kept := KeepFirst(rows, seen);
    KeepFirstSound(rows, seen);
    assert kept[i].title in Titles(kept) by { assert kept[i] in kept; }
    var t0 := rows[0].title;
    if t0 in seen {
      assert kept == KeepFirst(rows[1..], seen);
      assert j > 0;
      assert FirstOfTitle(rows[1..], j - 1);
      KeepFirstIsFirst(rows[1..], seen, i, j - 1);
    } else if i == 0 {
      assert j == 0;
    } else {
      var rest := KeepFirst(rows[1..], seen + {t0});
      KeepFirstSound(rows[1..], seen + {t0});
      assert kept == [rows[0]] + rest;
      assert kept[i] == rest[i - 1];
      assert rest[i - 1].title in Titles(rest) by { assert rest[i - 1] in rest; }
      assert j > 0;
      assert FirstOfTitle(rows[1..], j - 1);
      KeepFirstIsFirst(rows[1..], seen + {t0}, i - 1, j - 1);
    }
  }

  /** Keep-first over a concatenation keeps from the first part, then the unseen rows of the second. */
  lemma {:induction false} KeepFirstSplit(a: seq<Paper>, b: seq<Paper>, seen: set<string>)
    ensures KeepFirst(a + b, seen) == KeepFirst(a, seen) + KeepFirst(b, seen + Titles(a))
    decreases |a|
  {
    if |a| == 0 {
      assert a + b == b;
      assert Titles(a) == {};
      assert seen + Titles(a) == seen;
    } else {
      assert (a + b)[0] == a[0];
      assert (a + b)[1..] == a[1..] + b;
      TitlesCons(a);
      if a[0].title in seen {
        KeepFirstSplit(a[1..], b, seen);
        assert seen + Titles(a) == seen + Titles(a[1..]);
      } else {
        KeepFirstSplit(a[1..], b, seen + {a[0].title});
        assert seen + {a[0].title} + Titles(a[1..]) == seen + Titles(a);
      }
    }
  }

  /** Rows whose titles are all distinct and unseen are kept unchanged. */
  lemma {:induction false} KeepFirstOfDistinct(rows: seq<Paper>, seen: set<string>)
    requires DistinctTitles(rows)
    requires Titles(rows) !! seen
    ensures KeepFirst(rows, seen) == rows
    decreases |rows|
  {
    if |rows| > 0 {
      TitlesCons(rows);
      KeepFirstOfDistinct(rows[1..], seen + {rows[0].title});
      assert rows == [rows[0]] + rows[1..];
    }
  }

  /** Rows whose titles are all seen are all dropped. */
  lemma {:induction false} KeepFirstAllSeen(rows: seq<Paper>, seen: set<string>)
    requires Titles(rows) <= seen
    ensures KeepFirst(rows, seen) == []
    decreases |rows|
  {
    if |rows| > 0 {
      TitlesCons(rows);
      KeepFirstAllSeen(rows[1..], seen);
    }
  }

  /** A table with distinct titles has as many rows as titles. */
  lemma {:induction false} DistinctTitlesCount(rows: seq<Paper>)
    requires DistinctTitles(rows)
    ensures |Titles(rows)| == |rows|
    decreases |rows|
  {
    if |rows| > 0 {
      TitlesCons(rows);
      DistinctTitlesCount(rows[1..]);
    }
  }

  // ------------------------------------------------------------------ merge

  /** The table written back and the "N found" count printed, if any. */
  datatype StoreUpdate = StoreUpdate(table: seq<Paper>, newEntries: Option<nat>)

  /**
   Merging a batch into the store. With a stored table: concatenate, drop duplicate titles
   keeping the first, and report the growth when positive. Without one: write the batch as is.
   */
  function Merge(stored: Option<seq<Paper>>, batch: seq<Paper>): (u: StoreUpdate)
    ensures stored.None? ==> u.table == batch && u.newEntries.None?
    ensures stored.Some? ==> DistinctTitles(u.table)
    ensures stored.Some? ==> Titles(u.table) == Titles(stored.value) + Titles(batch)
    ensures stored.Some? ==> |u.table| <= |stored.value| + |batch|
    ensures stored.Some? ==> (u.newEntries.Some? <==> |u.table| > |stored.value|)
    ensures stored.Some? && u.newEntries.Some? ==> u.newEntries.value == |u.table| - |stored.value|
  {
    match stored
    case None => StoreUpdate(batch, None)
    case Some(loaded) =>
      var merged := DropDuplicateTitles(loaded + batch);
      KeepFirstSound(loaded + batch, {});
      TitlesSplit(loaded, batch);
      StoreUpdate(merged, if |merged| > |loaded| then Some(|merged| - |loaded|) else None)
  }

  /** A stored row beats every new row with the same title. */
  lemma StoredRowWins(loaded: seq<Paper>, batch: seq<Paper>, i: int, j: int)
    requires FirstOfTitle(loaded, j)
    requires 0 <= i < |Merge(Some(loaded), batch).table|
    requires Merge(Some(loaded), batch).table[i].title == loaded[j].title
    ensures Merge(Some(loaded), batch).table[i] == loaded[j]
  {
    assert FirstOfTitle(loaded + batch, j);
    KeepFirstIsFirst(loaded + batch, {}, i, j);
  }

  /** A title-distinct stored table is kept as the prefix; the new titles follow in batch order. */
  lemma MergeKeepsStoredPrefix(loaded: seq<Paper>, batch: seq<Paper>)
    requires DistinctTitles(loaded)
    ensures Merge(Some(loaded), batch).table == loaded + KeepFirst(batch, Titles(loaded))
  {
    KeepFirstSplit(loaded, batch, {});
    KeepFirstOfDistinct(loaded, {});
    assert {} + Titles(loaded) == Titles(loaded);
  }

  /** Over a title-distinct stored table, the count reported is the number of genuinely new titles. */
  lemma NewEntriesAreNewTitles(loaded: seq<Paper>, batch: seq<Paper>)
    requires DistinctTitles(loaded)
    ensures var u := Merge(Some(loaded), batch);
            && (u.newEntries.Some? <==> Titles(batch) - Titles(loaded) != {})
            && (u.newEntries.Some? ==> u.newEntries.value == |Titles(batch) - Titles(loaded)|)
  {
    MergeKeepsStoredPrefix(loaded, batch);
    var added := KeepFirst(batch, Titles(loaded));
    KeepFirstSound(batch, Titles(loaded));
    DistinctTitlesCount(added);
    if Titles(batch) - Titles(loaded) == {} {
      assert |added| == 0;
    }
  }

  /** Merging the same batch again leaves the table unchanged and reports nothing. */
  lemma MergeIdempotent(loaded: seq<Paper>, batch: seq<Paper>)
    ensures var once := Merge(Some(loaded), batch).table;
            Merge(Some(once), batch) == StoreUpdate(once, None)
  {
    var once := Merge(Some(loaded), batch).table;
    KeepFirstSound(loaded + batch, {});
    KeepFirstSplit(once, batch, {});
    KeepFirstOfDistinct(once, {});
    assert Titles(batch) <= {} + Titles(once);
    KeepFirstAllSeen(batch, {} + Titles(once));
    assert once + [] == once;
  }

  /**
   A fresh store is written without de-duplication, so a second run with the same batch
   drops its duplicate titles: the table is unchanged exactly when the batch's titles are distinct.
   */
  lemma FreshStoreSecondRun(batch: seq<Paper>)
    ensures Merge(Some(Merge(None, batch).table), batch).table == DropDuplicateTitles(batch)
    ensures Merge(Some(Merge(None, batch).table), batch).table == batch <==> DistinctTitles(batch)
  {
    KeepFirstSplit(batch, batch, {});
    KeepFirstAllSeen(batch, {} + Titles(batch));
    KeepFirstSound(batch, {});
    assert KeepFirst(batch, {}) + [] == KeepFirst(batch, {});
    if DistinctTitles(batch) {
      KeepFirstOfDistinct(batch, {});
    }
  }
}

=== FILE: scenarios.dfy ===
/** Concrete instances of the model on small inputs, one per documented behaviour. */
module Scenarios {
  import opened Optional
  import opened Text
  import opened PubmedTree
  import opened PaperDetails
  import opened Digest
  import opened RecordStore
  import opened PressReviewer

  /** An author with both fields, and one with neither. */
  lemma AuthorFormatting()
    ensures AuthorsField(Some([Author(Some("Smith"), Some("J"))])) == "Smith J,"
    ensures AuthorsField(Some([Author(None, None)])) == "NoLastNameFound NoInitialsFound,"
    ensures AuthorsField(None) == "NoAuthorsFound"
    ensures AuthorsField(Some([])) == ""
  {
    AuthorsOfSingle(Author(Some("Smith"), Some("J")));
    AuthorsOfSingle(Author(None, None));
  }

  /** Two abstract segments, each preceded by one space. */
  lemma AbstractConcatenation()
    ensures JoinedSegments(["Background text.", "Results text."]) == " Background text. Results text."
  {
    JoinedSegmentsSpaceSeparated(["Background text.", "Results text."]);
    assert JoinWith(["Background text.", "Results text."], " ") == "Background text." + " " + JoinWith(["Results text."], " ");
  }

  /**
   An `AbstractText` list holding one empty segment yields the abstract " ", which passes the
   publication test although the abstract carries no text.
   */
  lemma EmptySegmentIsPublished()
    ensures var a := Article(Some("T"), Some([Author(Some("Smith"), Some("J"))]),
                             Some(AbstractNode(Some(Segments([""])))), None, None);
            && ExtractArticle(a) == Ok(Paper("T", "Smith J,", " ", None, ""))
            && Complete(ExtractArticle(a).value)
  {
    var a := Article(Some("T"), Some([Author(Some("Smith"), Some("J"))]),
                     Some(AbstractNode(Some(Segments([""])))), None, None);
    AuthorFormatting();
    assert JoinWith([""], " ") == "";
    assert " " + "" == " ";
    assert AbstractField(a.abstractNode) == Ok(" ");
    assert AuthorsField(a.authorList) == "Smith J,";
  }

  /** Two queries that differ only in spaces against underscores share one table. */
  lemma FileKeysCollide()
    ensures FileKey("a b") == FileKey("a_b") == "a_b"
  {
  }

  /** Two new rows with one title: a fresh store keeps both, the next merge keeps only the first. */
  lemma FreshStoreKeepsDuplicateTitles()
    ensures var batch := [Paper("T", "A B,", " x", None, ""), Paper("T", "C D,", " y", None, "")];
            && Merge(None, batch).table == batch
            && Merge(Some(batch), batch).table == [batch[0]]
  {
    var batch := [Paper("T", "A B,", " x", None, ""), Paper("T", "C D,", " y", None, "")];
    assert batch + batch == [batch[0], batch[1], batch[0], batch[1]];
    var m := Merge(Some(batch), batch).table;
    assert Titles(batch + batch) == {"T"};
    KeepFirstSound(batch + batch, {});
    DistinctTitlesCount(m);
    assert |m| == 1;
    assert FirstOfTitle(batch + batch, 0);
    KeepFirstIsFirst(batch + batch, {}, 0, 0);
  }

  // ---------------------------------------------------------------- one query

  function Article100(): Article
  {
    Article(Some("Title 100"), Some([Author(Some("Smith"), Some("J"))]),
            Some(AbstractNode(Some(Verbatim("Abstract 100")))), None, Some(["Journal Article"]))
  }

  /** Identifier "100" has a complete record; "200" has no `Abstract`. */
  function ScenarioFetch(id: PubmedId): FetchedRecord
  {
    if id == "100" then
      FetchedRecord(Some([PubmedArticle(Some(MedlineCitation(Some(Article100()))))]))
    else
      FetchedRecord(Some([PubmedArticle(Some(MedlineCitation(Some(
        Article(Some("Title 200"), None, None, None, None)))))]))
  }

  function ScenarioSearch(q: string): SearchResult
  {
    SearchResult(Some(["100", "200"]))
  }

  function Paper100(): Paper
  {
    Paper("Title 100", "Smith J,", "Abstract 100", None, "Journal Article")
  }

  lemma ScenarioExtract100()
    ensures Extract(ScenarioFetch("100")) == Ok(Paper100())
  {
    AuthorFormatting();
    assert IsFirstUsable(ScenarioFetch("100").pubmedArticle.value, 0);
  }

  function Paper200(): Paper
  {
    Paper("Title 200", "NoAuthorsFound", "", None, "")
  }

  lemma ScenarioExtract200()
    ensures Extract(ScenarioFetch("200")) == Ok(Paper200())
  {
    assert IsFirstUsable(ScenarioFetch("200").pubmedArticle.value, 0);
  }

  lemma ScenarioFetchAll()
    ensures FetchAll(["100", "200"], Details(ScenarioFetch)) == Ok([Paper100(), Paper200()])
  {
    ScenarioExtract100();
    ScenarioExtract200();
    var ids := ["100", "200"];
    var papers := [Paper100(), Paper200()];
    assert Details(ScenarioFetch)(ids[0]) == Ok(papers[0]);
    assert Details(ScenarioFetch)(ids[1]) == Ok(papers[1]);
    FetchAllSucceeds(ids, Details(ScenarioFetch), papers);
  }

  /** Of the two fetched papers only "100" is complete. */
  lemma ScenarioDigest()
    ensures KeepComplete([Paper100(), Paper200()]) == [Paper100()]
    ensures Render([Paper100()]) == Fragment(Paper100())
  {
    var papers := [Paper100(), Paper200()];
    assert !Complete(Paper200());
    assert KeepComplete(papers) == [Paper100()] + KeepComplete(papers[1..]);
    assert papers[1..] == [Paper200()];
    assert KeepComplete([Paper200()]) == [] + KeepComplete([]);
    assert Fragments([Paper100()]) == [Fragment(Paper100())];
    ConcatAppend([], Fragment(Paper100()));
    assert [] + [Fragment(Paper100())] == [Fragment(Paper100())];
  }

  /** The query keeps exactly the complete paper "100", in one fragment. */
  lemma ScenarioQueryOutcome(query: string)
    ensures Runner(ScenarioSearch, ScenarioFetch)(query) == Generated(Fragment(Paper100()), [Paper100()])
  {
    ScenarioFetchAll();
    ScenarioDigest();
    assert ScenarioSearch(query).idList == Some(["100", "200"]);
    assert RunQuery(ScenarioSearch(query), Details(ScenarioFetch)) == Generated(Fragment(Paper100()), [Paper100()]);
    assert Runner(ScenarioSearch, ScenarioFetch)(query) == RunQuery(ScenarioSearch(query), Details(ScenarioFetch));
  }

  /** With no stored table the batch becomes the table and no count is printed. */
  lemma ScenarioFreshStore(query: string)
    ensures var run := FetchPapers([query], Runner(ScenarioSearch, ScenarioFetch), map[]);
            && run.halt.None?
            && run.reports == [QueryReport(query, Fragment(Paper100()), None)]
            && run.store == map[FileKey(query) := [Paper100()]]
  {
    ScenarioQueryOutcome(query);
    var next := Absorb(map[], query, [Paper100()]);
    assert next == (map[FileKey(query) := [Paper100()]], None);
    assert [query][1..] == [];
    assert FetchPapers([query][1..], Runner(ScenarioSearch, ScenarioFetch), next.0) == Run(next.0, [], None);
  }

  /**
   Merging the one new paper into an empty stored table reports one new entry. The program
   itself never leaves an empty table behind (its fresh write of an empty batch is a file
   without columns); an empty table comes from a header-only file written outside it.
   */
  lemma ScenarioMergeIntoEmpty(query: string)
    ensures Absorb(map[FileKey(query) := []], query, [Paper100()]) == (map[FileKey(query) := [Paper100()]], Some(1))
  {
    var loaded: seq<Paper> := [];
    assert loaded + [Paper100()] == [Paper100()];
    KeepFirstOfDistinct([Paper100()], {});
    assert Merge(Some(loaded), [Paper100()]) == StoreUpdate([Paper100()], Some(1));
    var key := FileKey(query);
    assert map[key := loaded][key := [Paper100()]] == map[key := [Paper100()]];
  }

  /**
   With an empty stored table the one new paper is reported as one new entry. As above, the
   empty table stands for a header-only file written outside the program.
   */
  lemma ScenarioExistingStore(query: string)
    ensures var run := FetchPapers([query], Runner(ScenarioSearch, ScenarioFetch), map[FileKey(query) := []]);
            && run.halt.None?
            && run.reports == [QueryReport(query, Fragment(Paper100()), Some(1))]
            && run.store == map[FileKey(query) := [Paper100()]]
  {
    ScenarioQueryOutcome(query);
    ScenarioMergeIntoEmpty(query);
    var next := Absorb(map[FileKey(query) := []], query, [Paper100()]);
    assert [query][1..] == [];
    assert FetchPapers([query][1..], Runner(ScenarioSearch, ScenarioFetch), next.0) == Run(next.0, [], None);
  }

  /** The query "first" has no `IdList`; every other query has an empty one. */
  function StopSearch(q: string): SearchResult
  {
    if q == "first" then SearchResult(None) else SearchResult(Some([]))
  }

  /** A search result without `IdList` stops the run before the second query. */
  lemma ScenarioEmptyResultStopsRun(second: string)
    ensures var run := FetchPapers(["first", second], Runner(StopSearch, ScenarioFetch), map[]);
            run.halt == Some(Exited("first")) && run.reports == [] && run.store == map[]
  {
    assert StopSearch("first") == SearchResult(None);
    assert RunQuery(StopSearch("first"), Details(ScenarioFetch)) == NoSearchResults;
    assert Runner(StopSearch, ScenarioFetch)("first") == RunQuery(StopSearch("first"), Details(ScenarioFetch));
    assert Runner(StopSearch, ScenarioFetch)("first") == NoSearchResults;
  }
}

=== FILE: text.dfy ===
/** String building used by the press review: concatenation, joining and character replacement. */
module Text {

  /** The concatenation of `parts`, in order. */
  function Concat(parts: seq<string>): string
  {
    if |parts| == 0 then "" else parts[0] + Concat(parts[1..])
  }

  /** `parts` joined with `sep` between consecutive parts (no leading or trailing separator). */
  function JoinWith(parts: seq<string>, sep: string): string
  {
    if |parts| == 0 then ""
    else if |parts| == 1 then parts[0]
    else parts[0] + sep + JoinWith(parts[1..], sep)
  }

  /** Every occurrence of `from` in `s` replaced by `to`, like Python's `str.replace` on one character. */
  function ReplaceChar(s: string, from: char, to: char): (r: string)
    ensures |r| == |s|
    ensures forall i :: 0 <= i < |s| && s[i] == from ==> r[i] == to
    ensures forall i :: 0 <= i < |s| && s[i] != from ==> r[i] == s[i]
  {
    if |s| == 0 then ""
    else [if s[0] == from then to else s[0]] + ReplaceChar(s[1..], from, to)
  }

  /** Concatenation distributes over sequence concatenation. */
  lemma {:induction false} ConcatSplit(a: seq<string>, b: seq<string>)
    ensures Concat(a + b) == Concat(a) + Concat(b)
  {
    if |a| == 0 {
      assert a + b == b;
    } else {
      assert (a + b)[1..] == a[1..] + b;
      ConcatSplit(a[1..], b);
    }
  }

  /** Appending one part to the list appends it to the concatenation (the step of a left fold). */
  lemma ConcatAppend(parts: seq<string>, last: string)
    ensures Concat(parts + [last]) == Concat(parts) + last
  {
    ConcatSplit(parts, [last]);
    assert Concat([last]) == last + Concat([]);
  }

  /** A concatenation is empty exactly when every part is. */
  lemma {:induction false} ConcatIsEmpty(parts: seq<string>)
    ensures Concat(parts) == "" <==> forall i :: 0 <= i < |parts| ==> parts[i] == ""
  {
    if |parts| > 0 {
      ConcatIsEmpty(parts[1..]);
      assert forall i :: 1 <= i < |parts| ==> parts[i] == parts[1..][i - 1];
    }
  }
}
